=== FILE: README.md ===
# delayed_signals — a Dafny model

This project models zipline's `delayed_signals` guard
(`zipline/utils/delayed_signals.py`). Used as a context manager or a
decorator, the guard does five things:

- it swaps its own bound method `handler` in for every signal of `trapped`;
- while the protected code runs, it records each delivery of those signals as
  `[trapped.index(signum), frame]` in `got`;
- on exit it puts back the handlers saved in `orig_handlers`;
- it then calls each saved handler once per recorded delivery, in delivery
  order;
- as a decorator it does all of this around one call of the wrapped function.

The model is purely functional:

- The process-wide signal table is a `map<Signal, Handler>`. A signal with no
  key is one that `signal.signal` refuses.
- A handler is a user callable that raises or returns, the interceptor, or one
  of the sentinels SIG_DFL and SIG_IGN.
- A `World` holds the table, the guard's three attributes, and the user-handler
  calls made so far.
- Each Python `for` loop is a fold that stops at the first exception.
- OS delivery is an explicit step (`Delivery.Dispatch`). It runs whatever
  handler the table currently holds for the signal.

Modules:

- `SignalTable`: handlers, errors, and `signal.signal` (`SetHandler`).
- `DelayedSignals`: the class itself. `New` is `__init__`, `Intercept` is
  `handler`, and `Enter`/`Install` are `__enter__`.
  `Exit`/`Restore`/`Replay` are `__exit__`.
- `Delivery`: the environment, meaning OS delivery of a signal and a block
  body that receives a sequence of deliveries.
- `ProtectedCall`: the `with` statement (`Region`) and the `__call__` wrapper
  (`Call`).
- `CycleLemmas`: properties of whole enter/deliver/exit cycles.
- `SignalArgument`: the constructor as written, handed a set or generator
  instead of a list, and the copying constructor it evidently needs (see
  "## Findings").

## Notable behaviours of the code

The model follows the code, including four behaviours that a reader of the
class docstring might not expect. Each has a lemma:

- **Refused registration.** There is no rollback when `signal.signal` refuses
  a signal during `__enter__`. The exception propagates at once. The signals
  swapped before it stay routed to the interceptor, and `__exit__` never runs
  (`EnterRefusalLeaksInterception`).
- **Replay is not best-effort.** The first exception raised by a replayed
  handler ends the replay, and the later deliveries are never replayed.
  - Replaying SIG_DFL or SIG_IGN is not a no-op: the sentinel is not
    callable, so the call raises TypeError (`SentinelStopsReplay`).
- **Reuse.** `got` and `orig_handlers` are never cleared, so reusing an
  instance (the decorator form) has two effects:
  - it replays earlier blocks' deliveries again
    (`SecondCycleReplaysFirstCycleAgain`);
  - it restores the handlers saved on the first entry, not the current ones
    (`ReusedGuardRestoresStaleHandlers`).
- **Duplicates in `trapped`.** A signal listed twice ends up routed to the
  interceptor after exit (`DuplicateTrapLeavesInterceptor`). Its second swap
  saved the interceptor, and the restoration loop writes that value back last.

## Model

| member | source | states |
|---|---|---|
| DelayedSignals.New | zipline/utils/delayed_signals.py:18-21 | the guard keeps the signal list exactly as given, duplicates and order included, with no saved handler and no record |
| DelayedSignals.IndexOf | zipline/utils/delayed_signals.py:16 | `list.index` gives the FIRST position holding the signal: no earlier position holds it |
| DelayedSignals.LastIndexOf | zipline/utils/delayed_signals.py:28-29 | the position whose write survives a forward loop over `trapped`: it holds the signal and no later position does |
| DelayedSignals.Install | zipline/utils/delayed_signals.py:24-25 | the entry loop succeeds iff every signal is settable; on success every listed signal routes to the interceptor, and slot k saves the previous handler, which is the interceptor itself when the signal occurred earlier; on refusal it stops at the first unsettable signal with the earlier swaps in place; other signals are untouched |
| DelayedSignals.Enter | zipline/utils/delayed_signals.py:23-25 | `__enter__` appends one displaced handler per trapped signal after the existing saved handlers, routes every trapped signal to the interceptor, and changes nothing else; a refused signal raises that refusal and leaves exactly the earlier swaps behind |
| DelayedSignals.Intercept | zipline/utils/delayed_signals.py:15-16 | the interceptor appends exactly one record, pointing at the first position of the delivered signal, with its frame; it raises the ValueError of `index` iff the signal is not trapped; nothing else changes |
| DelayedSignals.Restore | zipline/utils/delayed_signals.py:28-29 | the restoration loop completes iff there are enough saved handlers and every trapped signal is settable; each restored signal gets the handler saved at its LAST position; an IndexError or a refusal stops the loop at the first offending position |
| DelayedSignals.Replay | zipline/utils/delayed_signals.py:30-34 | one call per record, in record order, to `orig_handlers[i]` with `trapped[i]` and the recorded frame; it succeeds iff no record fails, and otherwise stops at the first failing record with exactly the calls before it, plus that record's own call when its handler is a user callable that raises |
| DelayedSignals.Exit | zipline/utils/delayed_signals.py:27-34 | `__exit__` never changes the guard; it only appends calls; a replay happens only after every trapped signal has its saved handler back; a failed restoration raises and makes no call |
| Delivery.Dispatch | zipline/utils/delayed_signals.py:15-16 | a delivery to the interceptor runs no handler, and records one event when the signal is trapped or raises the ValueError of `index` for that signal when it is not; a delivery to a user handler makes exactly one call and raises iff that handler raises; SIG_DFL and SIG_IGN make no call; the table and saved handlers never change |
| Delivery.Recorded | zipline/utils/delayed_signals.py:16 | the records the interceptor makes for a delivery sequence: one per delivery, in order, each pointing at the first position of its signal |
| Delivery.RunBody | zipline/utils/delayed_signals.py:39-40 | inside the block the table and saved handlers never change; when every delivery hits the interceptor, nothing raises, no handler runs, and `got` grows by exactly the records of the deliveries |
| ProtectedCall.Region | zipline/utils/delayed_signals.py:23-40 | a `with` block never changes a signal outside `trapped` and only appends calls and log entries; a refused entry raises, runs no handler and logs nothing; after a successful entry it saves one handler per trapped signal, and every trapped signal ends with the handler saved at its last position |
| ProtectedCall.Call | zipline/utils/delayed_signals.py:36-42 | when the `with` block raises nothing the wrapper returns exactly the function's result, and when it raises, the caller gets that same exception; a value it returns is always the function's own; an exception of the function is never swallowed; a refused entry raises without calling a handler; the table is left as a `with` block leaves it |
| CycleLemmas.EnterCaptures | zipline/utils/delayed_signals.py:23-25 | entry on settable signals succeeds and saves, in the first slots, the handlers displaced from the table before the first entry; later entries keep those in front |
| CycleLemmas.EnterRefusalLeaksInterception | zipline/utils/delayed_signals.py:23-25 | when the f-th trapped signal is refused, the `with` block raises that refusal, the f handlers displaced by the earlier swaps stay saved, the first f signals stay routed to the interceptor, and nothing is replayed or recorded |
| CycleLemmas.FirstCycleRestoresTable | zipline/utils/delayed_signals.py:23-29 | on a first block (no handler saved before) whose trapped signals are all settable and distinct, the `with` block leaves the whole signal table exactly as it was before, whatever was delivered inside |
| CycleLemmas.RestoredSlotIsOriginal | zipline/utils/delayed_signals.py:25-29 | with no duplicate signal, restoring from handlers saved on the first entry gives each trapped signal back the handler it had before that entry |
| CycleLemmas.DuplicateTrapLeavesInterceptor | zipline/utils/delayed_signals.py:24-29 | on a first block whose trapped signals are all settable, a signal listed twice still routes to the interceptor after the block, so a later delivery of it is recorded silently and runs no handler |
| CycleLemmas.RestoredDuplicateIsInterceptor | zipline/utils/delayed_signals.py:24-29 | a signal at two positions of `trapped` is restored from its last slot, which holds the interceptor |
| CycleLemmas.ReusedGuardRestoresStaleHandlers | zipline/utils/delayed_signals.py:20-29 | on an instance whose trapped signals are distinct and settable, reused after a first block, a handler installed for a trapped signal between the two blocks is overwritten on the second exit by the one saved before the FIRST block |
| CycleLemmas.RecordedSlotHoldsOriginal | zipline/utils/delayed_signals.py:16 | the saved slot a record points at holds the handler the delivered signal had before the first entry, duplicates included |
| CycleLemmas.ReplayStopsAtFirstFailure | zipline/utils/delayed_signals.py:30-34 | if the first failing record does not reach a callable, the replay raises exactly that record's exception after exactly the calls before it |
| CycleLemmas.ReplayCallsOriginals | zipline/utils/delayed_signals.py:30-34 | replaying the records of deliveries whose handlers return calls each signal's pre-entry handler once per delivery, in delivery order, and raises nothing |
| CycleLemmas.CycleReplaysLog | zipline/utils/delayed_signals.py:30-34 | a block on a guard that already holds records replays the old records and then the new ones, each to its pre-entry handler, when every delivery is trapped and every delivered signal's pre-entry handler is a user handler that returns |
| CycleLemmas.FirstCycleReplaysDeliveries | zipline/utils/delayed_signals.py:15-34 | on a first block, when each delivered signal's pre-entry handler is a user handler that returns, N deliveries of trapped signals give no call during the block and exactly N calls after it, in delivery order, with the delivered signals and frames, to the pre-entry handlers |
| CycleLemmas.FirstCycleLeavesLog | zipline/utils/delayed_signals.py:15-34 | after a first block whose signals are all settable and whose deliveries are all trapped, the guard holds the pre-entry handlers and one record per delivery, which is what a second block starts from |
| CycleLemmas.ReplayUsesRestoredHandlers | zipline/utils/delayed_signals.py:27-34 | on a first block with no duplicate in `trapped`, all deliveries trapped, and each delivered signal's pre-entry handler a user handler that returns: restoration precedes replay, so every replayed call goes to the handler the table holds for that signal after the block |
| CycleLemmas.SecondCycleReplaysFirstCycleAgain | zipline/utils/delayed_signals.py:18-34 | when both blocks' deliveries are trapped and their pre-entry handlers are user handlers that return, a second block on the same instance calls the handlers for the first block's deliveries a second time, before those for its own |
| CycleLemmas.SentinelStopsReplay | zipline/utils/delayed_signals.py:30-34 | on a first block whose signals are all settable, with every delivery trapped and each delivery before the j-th going to a signal whose pre-entry handler is a user handler that returns: when the j-th delivered signal had SIG_DFL or SIG_IGN, the block raises TypeError after exactly the calls for the first j deliveries |
| CycleLemmas.SentinelReplay | zipline/utils/delayed_signals.py:30-34 | for a guard whose saved handlers were captured from a table and whose log records every delivery, each delivery before the j-th going to a user handler that returns: when the j-th saved handler is a sentinel, replay makes the calls for the first j records and then raises TypeError |
| CycleLemmas.ReplayNeverReachesInterceptor | zipline/utils/delayed_signals.py:15-34 | on a first block starting from a table without the interceptor and with every delivery trapped, replay never calls the interceptor, even with duplicates in `trapped` |
| CycleLemmas.ReplayOfOriginalsNeverDiverges | zipline/utils/delayed_signals.py:30-34 | records pointing at handlers saved from a table without the interceptor never replay the interceptor |
| CycleLemmas.RegionAfterEntry | zipline/utils/delayed_signals.py:23-40 | after a successful entry (every signal settable, and the saved handlers empty or captured from the table), the block leaves the saved handlers alone, exit restores every trapped signal from its last slot, the block's calls are its own calls followed by those of the replay of the whole log, and its exception is the replay's when the replay raises, otherwise the block's own |
| CycleLemmas.DecoratedCallReturnsResult | zipline/utils/delayed_signals.py:36-42 | on a fresh instance with no duplicate in `trapped`, all deliveries trapped, and each delivered signal's pre-entry handler a user handler that returns: the decorated call returns exactly the function's result, restores the table, and replays each delivery once, in order, to its original handler |
| CycleLemmas.DecoratedCallPropagatesFunctionError | zipline/utils/delayed_signals.py:36-42 | on a fresh instance with no duplicate in `trapped`, all deliveries trapped, and each delivered signal's pre-entry handler a user handler that returns: when the wrapped function raises, the caller gets that exception, and each delivery still reaches its original handler once, in order |
| CycleLemmas.DecoratedCallSentinelRaises | zipline/utils/delayed_signals.py:30-42 | on a fresh instance whose signals are all settable, with every delivery trapped and each delivery before the j-th going to a user handler that returns: when the j-th delivered signal had SIG_DFL or SIG_IGN before the call, the caller gets TypeError whatever the function returned, after the calls for the first j deliveries |
| CycleLemmas.ReusedDecoratorReturnsResult | zipline/utils/delayed_signals.py:36-42 | the decorator's instance is shared by every call: on a fresh instance whose trapped signals are settable, with both calls' deliveries trapped and their pre-entry handlers user handlers that return, the first call and the second call on the same instance each return exactly the wrapped function's result |
| SignalArgument.InitAsWritten | zipline/utils/delayed_signals.py:18-21 | the constructor keeps the argument object itself, whatever its kind, with no saved handler and no record |
| SignalArgument.EnterAsWritten | zipline/utils/delayed_signals.py:23-25 | entry only loops over the argument, so a set or generator of settable signals enters like a list, routing every signal to the interceptor |
| SignalArgument.HandlerAsWritten | zipline/utils/delayed_signals.py:15-16 | on an argument without `index` every interception raises AttributeError; on a list it logs exactly when the signal is trapped |
| SignalArgument.ExitAsWritten | zipline/utils/delayed_signals.py:27-32 | on a generator, a non-empty set or a non-empty log, exit raises TypeError and restores nothing; on a list, after a successful entry (a saved handler for every trapped signal and every signal settable), it restores every trapped signal from its last slot |
| SignalArgument.UnindexedArgumentStrandsInterceptor | zipline/utils/delayed_signals.py:12-32 | with a non-empty set or generator, entry succeeds, every delivery raises AttributeError, exit raises TypeError, and the first signal is still routed to the interceptor afterwards |
| SignalArgument.SetOfOneSignalIsNeverRestored | zipline/utils/delayed_signals.py:12-32 | `delayed_signals({2})` with signal 2 at SIG_DFL leaves signal 2 routed to the interceptor after the block |
| SignalArgument.NewFromIterable | zipline/utils/delayed_signals.py:18-21 | copying the argument into a list in loop order gives a fresh guard on exactly the visited signals |
| SignalArgument.CopiedArgumentRestoresTable | zipline/utils/delayed_signals.py:12-29 | with the argument copied, any iterable of distinct settable signals is logged on delivery, and a `with` block leaves the signal table exactly as it was |

## Findings

| source | as written | input that shows it | evidently intended | confidence | as-written member | corrected member |
|---|---|---|---|---|---|---|
| zipline/utils/delayed_signals.py:12-32 | `__init__` keeps the argument object, and the interceptor and `__exit__` call `index`, `len` and `[]` on it | `delayed_signals({signal.SIGINT})`, or a generator of signals, around a block | any iterable of signals, as the docstring says, which needs `list(signals)` in `__init__` | medium; not executed | SignalArgument.UnindexedArgumentStrandsInterceptor | SignalArgument.CopiedArgumentRestoresTable |

## Left out

- Asynchrony and preemption. A delivery happens between two steps of the protected code, never inside the guard's own methods. The Python code has a window there that the model does not show.
- `signal.signal` returning `None`, which it does for a handler installed outside Python. The model also does not tell apart the exceptions a refused signal can raise (`ValueError` for an invalid signal number, `RuntimeError` from the operating system in Python 2, `OSError` in Python 3); all are `Refused`.
- What the OS default action of SIG_DFL does. A delivery to SIG_DFL inside the block is modelled as an exception that ends the block.
- `signal.signal` called outside the main thread raises ValueError for every signal. The model has this only in the form of a refusal of the first trapped signal.
- Everything a user handler does besides returning or raising. A handler is identified by a number, and a `raises` flag says whether calling it raises.
- `functools.wraps` metadata, and the arguments of the wrapped function.
- Replay reaching the interceptor itself: Python appends to the list it is iterating and never ends. The model ends the replay with the `Diverges` error instead.
- Frames are opaque values. `__exit__`'s three exception arguments are ignored by the code and are not modelled.
- Delivery.RunBody: after a delivery whose handler raises, the later deliveries of the block are dropped. The model does not continue the body after that exception.
- DelayedSignals.New: `__init__` keeps the caller's list object by reference, so a later change to that list changes `trapped`. The model copies the list by value and does not show that aliasing. An argument that is not a list is modelled separately in `SignalArgument`.
- Other guard instances. The model has one guard per world, so an interceptor already in the starting table counts as this instance's `handler`. Another instance's leaked `handler` would append to that other instance's log, so it has to be modelled as a `User` handler.
- Delivery.RunBody: the protected code itself never calls `signal.signal`; the table changes only through the guard.
- Python 2 `xrange` versus `range` makes no difference to the model.

=== FILE: cycle_lemmas.dfy ===
/** Properties of whole enter/deliver/exit cycles on one guard instance:
    restoration, first-in first-out replay, and the behaviour of the code as
    written when `trapped` holds a duplicate, when a saved handler is a
    sentinel, when a registration is refused, and when one instance is reused. */
module CycleLemmas {
  import opened SignalTable
  import opened DelayedSignals
  import opened Delivery
  import opened ProtectedCall

  /** A guard that has never been entered. */
  predicate FirstCycle(g: Guard)
  {
    g.origHandlers == [] && g.got == []
  }

  /** The first `len(trapped)` saved handlers are those the first entry
      displaced from table `t`; they are the only ones `__exit__` ever reads. */
  predicate CapturedFrom(g: Guard, t: Table)
  {
    && |g.origHandlers| >= |g.trapped|
    && AllSettable(t, g.trapped)
    && forall k :: 0 <= k < |g.trapped| ==> g.origHandlers[k] == Displaced(t, g.trapped, k)
  }

  /** Every delivery's signal had, in table `t`, a user handler that returns. */
  predicate CallableBefore(t: Table, ds: seq<Delivery>)
  {
    forall k :: 0 <= k < |ds| ==>
      ds[k].signum in t && t[ds[k].signum].User? && !t[ds[k].signum].raises
  }

  /** `got` holds exactly one record per delivery of `ds`, in order. */
  predicate RecordsAll(trapped: seq<Signal>, got: seq<Event>, ds: seq<Delivery>)
  {
    |got| == |ds| && forall k :: 0 <= k < |ds| ==> Records(trapped, got[k], ds[k].signum, ds[k].frame)
  }

  /** The calls the handlers of `t` receive for `ds`, one per delivery, in
      delivery order, each with the delivered signal and frame. */
  function Originals(t: Table, ds: seq<Delivery>): (calls: seq<Invocation>)
    requires CallableBefore(t, ds)
    ensures |calls| == |ds|
    ensures forall k :: 0 <= k < |ds| ==>
      calls[k] == Invocation(t[ds[k].signum].id, ds[k].signum, ds[k].frame)
    decreases |ds|
  {
    if ds == [] then []
    else
      var n := |ds| - 1;
      assert CallableBefore(t, ds[..n]) by {
        forall k | 0 <= k < n ensures ds[..n][k] == ds[k] { }
      }
      Originals(t, ds[..n]) + [Invocation(t[ds[n].signum].id, ds[n].signum, ds[n].frame)]
  }

  /** `ds1 + ds2` had callable handlers when each part had. */
  lemma CallableBeforeAppend(t: Table, ds1: seq<Delivery>, ds2: seq<Delivery>)
    requires CallableBefore(t, ds1) && CallableBefore(t, ds2)
    ensures CallableBefore(t, ds1 + ds2)
  {
    forall k | 0 <= k < |ds1| + |ds2|
      ensures (ds1 + ds2)[k] == if k < |ds1| then ds1[k] else ds2[k - |ds1|]
    {
    }
  }

  /** The slot a delivery's record points at holds, once captured from `t`,
      the handler the signal had in `t`. */
  lemma RecordedSlotHoldsOriginal(g: Guard, t: Table, e: Event, s: Signal, frame: Frame)
    requires CapturedFrom(g, t)
    requires Records(g.trapped, e, s, frame)
    ensures e.index < |g.origHandlers| && s in t
    ensures g.origHandlers[e.index] == t[s]
  {
    assert g.origHandlers[e.index] == Displaced(t, g.trapped, e.index);
  }

  /** A replay whose first `j` events replay cleanly and whose `j`-th event
      raises without reaching a callable raises that event's exception after
      exactly `j` calls. */
  lemma ReplayStopsAtFirstFailure(trapped: seq<Signal>, orig: seq<Handler>, got: seq<Event>, j: nat)
    requires j < |got|
    requires forall k :: 0 <= k < j ==> FailureOf(trapped, orig, got[k]).None?
    requires FailureOf(trapped, orig, got[j]).Some? && !Reaches(trapped, orig, got[j])
    ensures Replay(trapped, orig, got).err == FailureOf(trapped, orig, got[j])
    ensures |Replay(trapped, orig, got).calls| == j
  {
    var rp := Replay(trapped, orig, got);
    assert rp.err.Some?;
    var stop: nat :| StoppedAt(trapped, orig, got, stop, rp.calls, rp.err);
    if stop < j {
      assert false;
    }
    if stop > j {
      assert false;
    }
  }

  /** Appending the records of `ds` to a log of `past` gives a log of
      `past + ds`. */
  lemma LogRecords(trapped: seq<Signal>, prior: seq<Event>, past: seq<Delivery>, ds: seq<Delivery>, got: seq<Event>)
    requires RecordsAll(trapped, prior, past)
    requires AllTrapped(trapped, ds)
    requires got == prior + Recorded(trapped, ds)
    ensures RecordsAll(trapped, got, past + ds)
    ensures past == [] ==> RecordsAll(trapped, got, ds)
  {
    RecordsAllAppend(trapped, prior, past, Recorded(trapped, ds), ds);
    assert past == [] ==> past + ds == ds;
  }

  /** One `with` block after a successful entry on a guard whose saved
      handlers come from `t`: the deliveries inside leave the table and saved
      handlers alone, `__exit__` restores every trapped signal to the handler
      saved at its last position, then replays the whole log against the
      saved handlers. When every delivery is of a trapped signal, none runs a
      handler inside the block and each adds its record to the log. */
  lemma RegionAfterEntry(w: World, t: Table, ds: seq<Delivery>)
    requires AllSettable(w.table, w.guard.trapped)
    requires (w.guard.origHandlers == [] && w.table == t) || CapturedFrom(w.guard, t)
    ensures var inside := RunBody(Enter(w).world, ds);
      var g := inside.world.guard;
      var r := Region(w, ds);
      var rp := Replay(g.trapped, g.origHandlers, g.got);
      && g.trapped == w.guard.trapped
      && CapturedFrom(g, t)
      && r.world.guard == g
      && r.world.table.Keys == w.table.Keys
      && (forall s :: s in w.table && s !in w.guard.trapped ==> r.world.table[s] == w.table[s])
      && RestoredAll(g.trapped, g.origHandlers, r.world.table)
      && r.world.calls == inside.world.calls + rp.calls
      && r.raised == (if rp.err.Some? then rp.err else inside.raised)
      && (AllTrapped(w.guard.trapped, ds) ==>
            && inside.raised.None?
            && inside.world.calls == w.calls
            && g.got == w.guard.got + Recorded(w.guard.trapped, ds))
  {
    EnterCaptures(w, t);
    var entered := Enter(w).world;
    var inside := RunBody(entered, ds);
    if AllTrapped(w.guard.trapped, ds) {
      assert forall k :: 0 <= k < |ds| ==> Intercepted(entered, ds[k].signum);
    }
    assert RestoreCompletes(inside.world) by {
      assert inside.world.table.Keys == w.table.Keys;
    }
  }

  // ---------------------------------------------------------------------------
  // Entry

  /** The first entry saves, at each first occurrence of a signal, the handler
      the table held before entry; later entries keep those saved handlers in
      front. */
  lemma EnterCaptures(w: World, t: Table)
    requires AllSettable(w.table, w.guard.trapped)
    requires (w.guard.origHandlers == [] && w.table == t) || CapturedFrom(w.guard, t)
    ensures Enter(w).raised.None?
    ensures CapturedFrom(Enter(w).world.guard, t)
  {
    var g' := Enter(w).world.guard;
    var n := |w.guard.origHandlers|;
    if w.guard.origHandlers == [] && w.table == t {
      forall k | 0 <= k < |g'.trapped|
        ensures g'.origHandlers[k] == Displaced(t, g'.trapped, k)
      {
        assert g'.origHandlers[0 + k] == Displaced(t, g'.trapped, k);
      }
    } else {
      forall k | 0 <= k < |g'.trapped|
        ensures g'.origHandlers[k] == Displaced(t, g'.trapped, k)
      {
        assert g'.origHandlers[..n][k] == w.guard.origHandlers[k];
      }
    }
  }

  /** When `signal.signal` refuses `trapped[f]`, entry raises at once without
      undoing anything: the signals before it stay routed to the interceptor,
      `orig_handlers` keeps the f handlers their swaps displaced, and since
      `__exit__` never runs the block and the replay never happen. */
  lemma EnterRefusalLeaksInterception(w: World, ds: seq<Delivery>, f: nat)
    requires f < |w.guard.trapped|
    requires AllSettable(w.table, w.guard.trapped[..f])
    requires w.guard.trapped[f] !in w.table
    ensures Region(w, ds).raised == Some(Refused(w.guard.trapped[f]))
    ensures |Region(w, ds).world.guard.origHandlers| == |w.guard.origHandlers| + f
    ensures forall k :: 0 <= k < f ==>
      Region(w, ds).world.guard.origHandlers[|w.guard.origHandlers| + k] == Displaced(w.table, w.guard.trapped, k)
    ensures forall k :: 0 <= k < f ==>
      w.guard.trapped[k] in Region(w, ds).world.table
      && Region(w, ds).world.table[w.guard.trapped[k]] == Interceptor
    ensures Region(w, ds).world.calls == w.calls
    ensures Region(w, ds).world.guard.got == w.guard.got
  {
    var trapped := w.guard.trapped;
    assert !AllSettable(w.table, trapped) by {
      assert trapped[f] !in w.table;
    }
    var e := Enter(w);
    var c := |e.world.guard.origHandlers| - |w.guard.origHandlers|;
    assert c == f;
    forall k | 0 <= k < f
      ensures trapped[k] in e.world.table && e.world.table[trapped[k]] == Interceptor
    {
      assert trapped[..f][k] == trapped[k];
      assert trapped[k] in trapped[..c];
    }
  }

  // ---------------------------------------------------------------------------
  // Restoration

  /** On a first cycle with no duplicate in `trapped`, the table after the
      `with` block equals the table before it, whatever was delivered inside:
      every trapped signal has its own handler back and no other signal was
      ever touched. */
  lemma FirstCycleRestoresTable(w: World, ds: seq<Delivery>)
    requires w.guard.origHandlers == []
    requires NoDuplicates(w.guard.trapped)
    requires AllSettable(w.table, w.guard.trapped)
    ensures Region(w, ds).world.table == w.table
  {
    RegionAfterEntry(w, w.table, ds);
    RestoreGivesBackTable(RunBody(Enter(w).world, ds).world.guard, w.table, Region(w, ds).world.table);
  }

  /** With no duplicate in `trapped`, restoring from handlers captured from `t`
      gives each trapped signal its handler from `t` back. */
  lemma RestoredSlotIsOriginal(g: Guard, t: Table, final: Table, s: Signal)
    requires CapturedFrom(g, t)
    requires NoDuplicates(g.trapped)
    requires RestoredAll(g.trapped, g.origHandlers, final)
    requires s in g.trapped
    ensures s in t && s in final && final[s] == t[s]
  {
    var k := LastIndexOf(g.trapped, s);
    assert g.trapped[k] == s;
    assert s !in g.trapped[..k];
    assert g.origHandlers[k] == Displaced(t, g.trapped, k);
  }

  /** The table-level half of `FirstCycleRestoresTable`. */
  lemma RestoreGivesBackTable(g: Guard, t: Table, final: Table)
    requires CapturedFrom(g, t)
    requires NoDuplicates(g.trapped)
    requires RestoredAll(g.trapped, g.origHandlers, final)
    requires final.Keys == t.Keys
    requires forall s :: s in t && s !in g.trapped ==> final[s] == t[s]
    ensures final == t
  {
    forall s | s in t
      ensures final[s] == t[s]
    {
      if s in g.trapped {
        RestoredSlotIsOriginal(g, t, final, s);
      }
    }
  }

  /** With `s` at positions `i < j` of `trapped`, the second swap saves the
      interceptor itself, and the forward restoration loop writes it back last:
      after the `with` block `s` still routes to the interceptor, so a later
      delivery of `s` is recorded and runs no handler. */
  lemma DuplicateTrapLeavesInterceptor(w: World, ds: seq<Delivery>, i: nat, j: nat, frame: Frame)
    requires w.guard.origHandlers == []
    requires AllSettable(w.table, w.guard.trapped)
    requires i < j < |w.guard.trapped| && w.guard.trapped[i] == w.guard.trapped[j]
    ensures var after := Region(w, ds).world;
      && w.guard.trapped[i] in after.table
      && after.table[w.guard.trapped[i]] == Interceptor
      && Dispatch(after, w.guard.trapped[i], frame).raised.None?
      && Dispatch(after, w.guard.trapped[i], frame).world.calls == after.calls
  {
    RegionAfterEntry(w, w.table, ds);
    var after := Region(w, ds).world;
    RestoredDuplicateIsInterceptor(after.guard, w.table, after.table, i, j);
  }

  /** Restoring from handlers captured from `t` gives a signal that occurs
      twice in `trapped` the interceptor, saved by its second swap. */
  lemma RestoredDuplicateIsInterceptor(g: Guard, t: Table, final: Table, i: nat, j: nat)
    requires CapturedFrom(g, t)
    requires RestoredAll(g.trapped, g.origHandlers, final)
    requires i < j < |g.trapped| && g.trapped[i] == g.trapped[j]
    ensures g.trapped[i] in final && final[g.trapped[i]] == Interceptor
  {
    var s := g.trapped[i];
    var last := LastIndexOf(g.trapped, s);
    assert final[s] == g.origHandlers[last];
    assert j <= last;
    assert g.trapped[..last][i] == s;
    assert g.origHandlers[last] == Displaced(t, g.trapped, last);
  }

  /** Reusing one instance (the decorator form) restores from stale slots: the
      second exit reads the handlers saved on the FIRST entry, so a handler
      installed for `s` between the two calls is overwritten by the one from
      before the first call. */
  lemma ReusedGuardRestoresStaleHandlers(w: World, ds1: seq<Delivery>, s: Signal, h: Handler, ds2: seq<Delivery>)
    requires w.guard.origHandlers == []
    requires NoDuplicates(w.guard.trapped)
    requires AllSettable(w.table, w.guard.trapped)
    requires s in w.guard.trapped
    ensures var w1 := Region(w, ds1).world;
      var w2 := Region(w1.(table := w1.table[s := h]), ds2).world;
      s in w2.table && w2.table[s] == w.table[s]
  {
    RegionAfterEntry(w, w.table, ds1);
    var w1 := Region(w, ds1).world;
    var v := w1.(table := w1.table[s := h]);
    RegionAfterEntry(v, w.table, ds2);
    var w2 := Region(v, ds2).world;
    RestoredSlotIsOriginal(w2.guard, w.table, w2.table, s);
  }

  // ---------------------------------------------------------------------------
  // Replay

  /** Replaying records of deliveries, against handlers captured from `t`,
      calls the handler each signal had in `t`, once per delivery, in delivery
      order, with the delivered signal: the recorded index is the first
      position of the signal, and that slot holds the pre-entry handler even
      when `trapped` has duplicates. */
  lemma ReplayCallsOriginals(g: Guard, t: Table, got: seq<Event>, ds: seq<Delivery>)
    requires CapturedFrom(g, t)
    requires RecordsAll(g.trapped, got, ds)
    requires CallableBefore(t, ds)
    ensures Replay(g.trapped, g.origHandlers, got) == Replayed(Originals(t, ds), None)
  {
    var r := Replay(g.trapped, g.origHandlers, got);
    var expected := Originals(t, ds);
    forall k | 0 <= k < |got|
      ensures FailureOf(g.trapped, g.origHandlers, got[k]).None?
      ensures Reaches(g.trapped, g.origHandlers, got[k])
      ensures Expected(g.trapped, g.origHandlers, got[k]) == expected[k]
    {
      RecordedSlotHoldsOriginal(g, t, got[k], ds[k].signum, ds[k].frame);
    }
    assert r.calls == expected;
  }

  /** Records of `ds1` followed by records of `ds2` are records of `ds1 + ds2`. */
  lemma RecordsAllAppend(trapped: seq<Signal>, got1: seq<Event>, ds1: seq<Delivery>,
                         got2: seq<Event>, ds2: seq<Delivery>)
    requires RecordsAll(trapped, got1, ds1) && RecordsAll(trapped, got2, ds2)
    ensures RecordsAll(trapped, got1 + got2, ds1 + ds2)
  {
    forall k | 0 <= k < |ds1| + |ds2|
      ensures Records(trapped, (got1 + got2)[k], (ds1 + ds2)[k].signum, (ds1 + ds2)[k].frame)
    {
      if k >= |ds1| {
        assert (got1 + got2)[k] == got2[k - |ds1|];
        assert (ds1 + ds2)[k] == ds2[k - |ds1|];
      }
    }
  }

  /** One `with` block on a guard whose saved handlers come from `t` and whose
      log already records `past`: every delivery inside is intercepted and no
      handler runs during the block; `__exit__` then replays the whole log,
      old entries included, calling each signal's handler from `t`. */
  lemma CycleReplaysLog(w: World, t: Table, past: seq<Delivery>, ds: seq<Delivery>)
    requires AllSettable(w.table, w.guard.trapped)
    requires CapturedFrom(w.guard, t)
    requires RecordsAll(w.guard.trapped, w.guard.got, past)
    requires AllTrapped(w.guard.trapped, ds)
    requires CallableBefore(t, past + ds)
    ensures Region(w, ds).raised.None?
    ensures Region(w, ds).world.calls == w.calls + Originals(t, past + ds)
  {
    RegionAfterEntry(w, t, ds);
    var g := RunBody(Enter(w).world, ds).world.guard;
    LogRecords(w.guard.trapped, w.guard.got, past, ds, g.got);
    ReplayCallsOriginals(g, t, g.got, past + ds);
  }

  /** On a first cycle, N deliveries of trapped signals during the block give
      no call inside it and exactly N calls after it, in delivery order, each
      to the handler the signal had before entry, with the delivered signal
      and frame. An empty delivery list gives no call at all. */
  lemma FirstCycleReplaysDeliveries(w: World, ds: seq<Delivery>)
    requires FirstCycle(w.guard)
    requires AllSettable(w.table, w.guard.trapped)
    requires AllTrapped(w.guard.trapped, ds)
    requires CallableBefore(w.table, ds)
    ensures RunBody(Enter(w).world, ds).world.calls == w.calls
    ensures Region(w, ds).raised.None?
    ensures Region(w, ds).world.calls == w.calls + Originals(w.table, ds)
    ensures |Region(w, ds).world.calls| == |w.calls| + |ds|
  {
    RegionAfterEntry(w, w.table, ds);
    var g := RunBody(Enter(w).world, ds).world.guard;
    LogRecords(w.guard.trapped, [], [], ds, g.got);
    ReplayCallsOriginals(g, w.table, g.got, ds);
  }

  /** A first cycle leaves a guard whose saved handlers come from the table
      before entry and whose log records the block's deliveries. */
  lemma FirstCycleLeavesLog(w: World, ds: seq<Delivery>)
    requires FirstCycle(w.guard)
    requires AllSettable(w.table, w.guard.trapped)
    requires AllTrapped(w.guard.trapped, ds)
    ensures var w1 := Region(w, ds).world;
      && w1.guard.trapped == w.guard.trapped
      && AllSettable(w1.table, w1.guard.trapped)
      && CapturedFrom(w1.guard, w.table)
      && RecordsAll(w1.guard.trapped, w1.guard.got, ds)
  {
    RegionAfterEntry(w, w.table, ds);
    var g := RunBody(Enter(w).world, ds).world.guard;
    LogRecords(w.guard.trapped, [], [], ds, g.got);
  }

  /** Restoration precedes replay: with no duplicate in `trapped`, every call
      the first `__exit__` makes goes to the handler the table holds for that
      signal once the block is over. */
  lemma ReplayUsesRestoredHandlers(w: World, ds: seq<Delivery>)
    requires FirstCycle(w.guard)
    requires NoDuplicates(w.guard.trapped)
    requires AllSettable(w.table, w.guard.trapped)
    requires AllTrapped(w.guard.trapped, ds)
    requires CallableBefore(w.table, ds)
    ensures var after := Region(w, ds).world;
      forall k :: |w.calls| <= k < |after.calls| ==>
        after.calls[k].signum in after.table
        && after.table[after.calls[k].signum] == User(after.calls[k].handler, false)
  {
    FirstCycleReplaysDeliveries(w, ds);
    FirstCycleRestoresTable(w, ds);
    CallsGoToInstalledHandlers(w.calls, w.table, ds, Region(w, ds).world);
  }

  /** The calls `Originals(t, ds)` each go to the handler `t` holds for the
      called signal. */
  lemma CallsGoToInstalledHandlers(before: seq<Invocation>, t: Table, ds: seq<Delivery>, after: World)
    requires CallableBefore(t, ds)
    requires after.calls == before + Originals(t, ds)
    requires after.table == t
    ensures forall k :: |before| <= k < |after.calls| ==>
      after.calls[k].signum in after.table
      && after.table[after.calls[k].signum] == User(after.calls[k].handler, false)
  {
    var expected := Originals(t, ds);
    forall k | |before| <= k < |after.calls|
      ensures after.calls[k].signum in t
      ensures t[after.calls[k].signum] == User(after.calls[k].handler, false)
    {
      assert after.calls[k] == expected[k - |before|];
    }
  }

  /** Reusing one instance replays old events again: the second `with` block
      calls the handlers for every delivery of the FIRST block a second time,
      before those of its own, because `got` is never cleared. */
  lemma SecondCycleReplaysFirstCycleAgain(w: World, ds1: seq<Delivery>, ds2: seq<Delivery>)
    requires FirstCycle(w.guard)
    requires AllSettable(w.table, w.guard.trapped)
    requires AllTrapped(w.guard.trapped, ds1) && AllTrapped(w.guard.trapped, ds2)
    requires CallableBefore(w.table, ds1) && CallableBefore(w.table, ds2)
    ensures var w1 := Region(w, ds1).world;
      var r2 := Region(w1, ds2);
      && r2.raised.None?
      && r2.world.calls == w.calls + Originals(w.table, ds1) + Originals(w.table, ds1) + Originals(w.table, ds2)
      && |r2.world.calls| == |w.calls| + 2 * |ds1| + |ds2|
  {
    var t := w.table;
    FirstCycleReplaysDeliveries(w, ds1);
    FirstCycleLeavesLog(w, ds1);
    var w1 := Region(w, ds1).world;
    OriginalsAppend(t, ds1, ds2);
    CycleReplaysLog(w1, t, ds1, ds2);
    Regroup(w.calls, Originals(t, ds1), Originals(t, ds1), Originals(t, ds2));
  }

  /** Replaying `ds1 + ds2` makes the calls for `ds1`, then those for `ds2`. */
  lemma OriginalsAppend(t: Table, ds1: seq<Delivery>, ds2: seq<Delivery>)
    requires CallableBefore(t, ds1) && CallableBefore(t, ds2)
    ensures CallableBefore(t, ds1 + ds2)
    ensures Originals(t, ds1 + ds2) == Originals(t, ds1) + Originals(t, ds2)
  {
    CallableBeforeAppend(t, ds1, ds2);
    var a := Originals(t, ds1 + ds2);
    var b := Originals(t, ds1) + Originals(t, ds2);
    forall k | 0 <= k < |a|
      ensures a[k] == b[k]
    {
      assert (ds1 + ds2)[k] == if k < |ds1| then ds1[k] else ds2[k - |ds1|];
    }
  }

  /** Sequence concatenation regrouped: the calls before a block, then its
      replay of the earlier log, then the rest of its replay. Kept as a lemma
      so that the step is proved apart from the cycle it is used in. */
  lemma Regroup(a: seq<Invocation>, b: seq<Invocation>, c: seq<Invocation>, d: seq<Invocation>)
    ensures (a + b) + (c + d) == a + b + c + d
  {
  }

  /** Replay is not best-effort: when the `j`-th delivery's saved handler is
      SIG_DFL or SIG_IGN, calling it raises TypeError, the calls for the
      deliveries before it have been made, and the deliveries after it are
      never replayed. */
  lemma SentinelStopsReplay(w: World, ds: seq<Delivery>, j: nat)
    requires FirstCycle(w.guard)
    requires AllSettable(w.table, w.guard.trapped)
    requires AllTrapped(w.guard.trapped, ds)
    requires j < |ds| && CallableBefore(w.table, ds[..j])
    requires ds[j].signum in w.table && w.table[ds[j].signum] in {Default, Ignore}
    ensures Region(w, ds).raised == Some(NotCallable(w.table[ds[j].signum]))
    ensures Region(w, ds).world.calls == w.calls + Originals(w.table, ds[..j])
  {
    RegionAfterEntry(w, w.table, ds);
    var g := RunBody(Enter(w).world, ds).world.guard;
    LogRecords(w.guard.trapped, [], [], ds, g.got);
    SentinelReplay(g, w.table, ds, j);
  }

  /** The replay half of `SentinelStopsReplay`, on a log of `ds`. */
  lemma SentinelReplay(g: Guard, t: Table, ds: seq<Delivery>, j: nat)
    requires CapturedFrom(g, t)
    requires RecordsAll(g.trapped, g.got, ds)
    requires j < |ds| && CallableBefore(t, ds[..j])
    requires ds[j].signum in t && t[ds[j].signum] in {Default, Ignore}
    ensures Replay(g.trapped, g.origHandlers, g.got) == Replayed(Originals(t, ds[..j]), Some(NotCallable(t[ds[j].signum])))
  {
    var got := g.got;
    var expected := Originals(t, ds[..j]);
    forall k | 0 <= k < j
      ensures FailureOf(g.trapped, g.origHandlers, got[k]).None?
      ensures Reaches(g.trapped, g.origHandlers, got[k])
      ensures Expected(g.trapped, g.origHandlers, got[k]) == expected[k]
    {
      RecordedSlotHoldsOriginal(g, t, got[k], ds[k].signum, ds[k].frame);
      assert ds[..j][k] == ds[k];
    }
    RecordedSlotHoldsOriginal(g, t, got[j], ds[j].signum, ds[j].frame);
    ReplayStopsAtFirstFailure(g.trapped, g.origHandlers, got, j);
    var rp := Replay(g.trapped, g.origHandlers, got);
    assert rp.calls == expected;
  }

  /** Replay never reaches the interceptor on a first cycle that starts from a
      table without it, duplicates in `trapped` included: each recorded index
      is a first position, whose slot holds the pre-entry handler. */
  lemma ReplayNeverReachesInterceptor(w: World, ds: seq<Delivery>)
    requires FirstCycle(w.guard)
    requires AllSettable(w.table, w.guard.trapped)
    requires AllTrapped(w.guard.trapped, ds)
    requires forall k :: 0 <= k < |w.guard.trapped| ==> w.table[w.guard.trapped[k]] != Interceptor
    ensures Region(w, ds).raised != Some(Diverges)
  {
    RegionAfterEntry(w, w.table, ds);
    var g := RunBody(Enter(w).world, ds).world.guard;
    LogRecords(w.guard.trapped, [], [], ds, g.got);
    ReplayOfOriginalsNeverDiverges(g, w.table, ds);
  }

  /** The replay half of `ReplayNeverReachesInterceptor`, on a log of `ds`. */
  lemma ReplayOfOriginalsNeverDiverges(g: Guard, t: Table, ds: seq<Delivery>)
    requires CapturedFrom(g, t)
    requires RecordsAll(g.trapped, g.got, ds)
    requires forall k :: 0 <= k < |g.trapped| ==> t[g.trapped[k]] != Interceptor
    ensures Replay(g.trapped, g.origHandlers, g.got).err != Some(Diverges)
  {
    forall k | 0 <= k < |g.got|
      ensures FailureOf(g.trapped, g.origHandlers, g.got[k]) != Some(Diverges)
    {
      RecordedSlotHoldsOriginal(g, t, g.got[k], ds[k].signum, ds[k].frame);
    }
    var rp := Replay(g.trapped, g.origHandlers, g.got);
    if rp.err.Some? {
      var stop: nat :| StoppedAt(g.trapped, g.origHandlers, g.got, stop, rp.calls, rp.err);
    }
  }

  // ---------------------------------------------------------------------------
  // The decorator

  /** A decorated call on a fresh instance returns exactly what the wrapped
      function returns (or propagates its own exception), after one complete
      enter/exit cycle: the table is back as before and each delivery during
      the call reached its original handler once, in order, after the call. */
  lemma DecoratedCallReturnsResult<V>(w: World, body: Body<V>)
    requires FirstCycle(w.guard)
    requires NoDuplicates(w.guard.trapped)
    requires AllSettable(w.table, w.guard.trapped)
    requires AllTrapped(w.guard.trapped, body.deliveries)
    requires CallableBefore(w.table, body.deliveries)
    ensures Call(w, body).1 == body.result
    ensures Call(w, body).0.table == w.table
    ensures Call(w, body).0.calls == w.calls + Originals(w.table, body.deliveries)
  {
    FirstCycleReplaysDeliveries(w, body.deliveries);
    FirstCycleRestoresTable(w, body.deliveries);
  }

  /** When the wrapped function itself raises on a fresh instance, the caller
      sees the function's own exception, and every delivery trapped during
      the call still reaches its original handler once, in order. */
  lemma DecoratedCallPropagatesFunctionError<V>(w: World, body: Body<V>, code: nat)
    requires FirstCycle(w.guard)
    requires NoDuplicates(w.guard.trapped)
    requires AllSettable(w.table, w.guard.trapped)
    requires AllTrapped(w.guard.trapped, body.deliveries)
    requires CallableBefore(w.table, body.deliveries)
    requires body.result == Raised(BodyRaised(code))
    ensures Call(w, body).1 == Raised(BodyRaised(code))
    ensures Call(w, body).0.calls == w.calls + Originals(w.table, body.deliveries)
  {
    FirstCycleReplaysDeliveries(w, body.deliveries);
  }

  /** A decorated call whose j-th trapped delivery had SIG_DFL or SIG_IGN before
      entry raises TypeError to the caller, whatever the wrapped function
      returned, after the original handlers of the first j deliveries ran. */
  lemma DecoratedCallSentinelRaises<V>(w: World, body: Body<V>, j: nat)
    requires FirstCycle(w.guard)
    requires AllSettable(w.table, w.guard.trapped)
    requires AllTrapped(w.guard.trapped, body.deliveries)
    requires j < |body.deliveries| && CallableBefore(w.table, body.deliveries[..j])
    requires body.deliveries[j].signum in w.table
    requires w.table[body.deliveries[j].signum] in {Default, Ignore}
    ensures Call(w, body).1 == Raised(NotCallable(w.table[body.deliveries[j].signum]))
    ensures Call(w, body).0.calls == w.calls + Originals(w.table, body.deliveries[..j])
  {
    SentinelStopsReplay(w, body.deliveries, j);
  }

  /** The decorator reuses one instance for every call. With the deliveries
      of both calls trapped and their pre-entry handlers user handlers that
      return, the second call on the same instance still returns exactly what
      the wrapped function returns, although its exit replays the first call's
      deliveries again. */
  lemma ReusedDecoratorReturnsResult<V>(w: World, b1: Body<V>, b2: Body<V>)
    requires FirstCycle(w.guard)
    requires AllSettable(w.table, w.guard.trapped)
    requires AllTrapped(w.guard.trapped, b1.deliveries) && AllTrapped(w.guard.trapped, b2.deliveries)
    requires CallableBefore(w.table, b1.deliveries) && CallableBefore(w.table, b2.deliveries)
    ensures Call(w, b1).1 == b1.result
    ensures Call(Call(w, b1).0, b2).1 == b2.result
  {
    FirstCycleReplaysDeliveries(w, b1.deliveries);
    var w1 := Call(w, b1).0;
    assert w1 == Region(w, b1.deliveries).world;
    assert Region(w1, b2.deliveries).raised.None? by {
      SecondCycleReplaysFirstCycleAgain(w, b1.deliveries, b2.deliveries);
    }
  }
}

=== FILE: delayed_signals.dfy ===
/** The `delayed_signals` guard: construction, the interceptor, entry (swap in
    the interceptor for every trapped signal) and exit (restore every saved
    handler, then replay the recorded deliveries in order).

    Each Python `for` loop is modelled as a fold written from the back: the
    result for `xs` is one more iteration applied to the result for all of `xs`
    but its last element, and an exception ends the fold where it is raised. */
module DelayedSignals {
  import opened SignalTable

  /** One intercepted delivery: the index of the signal in `trapped` and the
      frame the OS supplied. */
  datatype Event = Event(index: nat, frame: Frame)

  /** The guard's three attributes. */
  datatype Guard = Guard(trapped: seq<Signal>, origHandlers: seq<Handler>, got: seq<Event>)

  /** One call of a user handler: which handler, with which signal and frame. */
  datatype Invocation = Invocation(handler: nat, signum: Signal, frame: Frame)

  /** Everything the guard can affect: the signal table, the guard itself and the
      record of user-handler calls made so far. */
  datatype World = World(table: Table, guard: Guard, calls: seq<Invocation>)

  /** A world after a step, and the exception the step raised, if any. */
  datatype Outcome = Outcome(world: World, raised: Option<Error>)

  /** `delayed_signals(signals)`: the list is kept as given, duplicates and
      order included, and both bookkeeping lists start empty. */
  function New(signals: seq<Signal>): (g: Guard)
    ensures g.trapped == signals
    ensures |g.origHandlers| == 0 && |g.got| == 0
  {
    Guard(signals, [], [])
  }

  /** `list.index`: the first position of `x` in `s`. */
  function IndexOf(s: seq<Signal>, x: Signal): (i: nat)
    requires x in s
    ensures i < |s| && s[i] == x
    ensures x !in s[..i]
  {
    if s[0] == x then 0
    else
      var j := IndexOf(s[1..], x);
      assert s[..j + 1] == [s[0]] + s[1..][..j];
      j + 1
  }

  /** The last position of `x` in `s`: the slot whose write survives a loop that
      writes every position of `s` in order. */
  function LastIndexOf(s: seq<Signal>, x: Signal): (i: nat)
    requires x in s
    ensures i < |s| && s[i] == x
    ensures x !in s[i + 1..]
  {
    var n := |s| - 1;
    if s[n] == x then n
    else
      assert s == s[..n] + [s[n]];
      var j := LastIndexOf(s[..n], x);
      assert s[j + 1..] == s[..n][j + 1..] + [s[n]];
      j
  }

  // ---------------------------------------------------------------------------
  // __enter__

  /** What the `k`-th swap of the entry loop displaces: the interceptor itself
      when the same signal already occurred earlier in the list, otherwise the
      handler that was in the table before entry. */
  function Displaced(t: Table, sigs: seq<Signal>, k: nat): Handler
    requires k < |sigs| && sigs[k] in t
  {
    if sigs[k] in sigs[..k] then Interceptor else t[sigs[k]]
  }

  /** The result of the entry loop: the table, the displaced handlers in loop
      order, and the exception that stopped the loop, if any. */
  datatype Installed = Installed(table: Table, captured: seq<Handler>, err: Option<Error>)

  /** The entry loop: walks the trapped signals in order, routes each one to
      the interceptor and keeps the handler that routing displaced. */
  function Install(t: Table, sigs: seq<Signal>): (r: Installed)
    ensures |r.captured| <= |sigs|
    ensures r.err.None? <==> AllSettable(t, sigs)
    ensures r.err.None? ==> |r.captured| == |sigs|
    ensures r.err.Some? ==>
      && |r.captured| < |sigs|
      && sigs[|r.captured|] !in t
      && r.err == Some(Refused(sigs[|r.captured|]))
    ensures AllSettable(t, sigs[..|r.captured|])
    ensures r.table.Keys == t.Keys
    ensures forall s :: s in t ==>
      r.table[s] == (if s in sigs[..|r.captured|] then Interceptor else t[s])
    ensures forall k :: 0 <= k < |r.captured| ==> r.captured[k] == Displaced(t, sigs, k)
    decreases |sigs|
  {
    if sigs == [] then Installed(t, [], None)
    else
      var n := |sigs| - 1;
      assert sigs[..n + 1] == sigs;
      var prev := Install(t, sigs[..n]);
      assert sigs[..n][..|prev.captured|] == sigs[..|prev.captured|];
      if prev.err.Some? then prev
      else
        match SetHandler(prev.table, sigs[n], Interceptor)
        case None => Installed(prev.table, prev.captured, Some(Refused(sigs[n])))
        case Some(sw) =>
          assert sigs == sigs[..n] + [sigs[n]];
          Installed(sw.table, prev.captured + [sw.previous], None)
  }

  /** `__enter__`: on success every trapped signal is routed to the interceptor,
      `orig_handlers` has grown by exactly one displaced handler per trapped
      signal, and nothing else changes. A refused signal raises at once and
      leaves the swaps already made in place. */
  function Enter(w: World): (r: Outcome)
    ensures r.world.guard.trapped == w.guard.trapped
    ensures r.world.guard.got == w.guard.got
    ensures r.world.calls == w.calls
    ensures r.world.table.Keys == w.table.Keys
    ensures |r.world.guard.origHandlers| >= |w.guard.origHandlers|
    ensures r.world.guard.origHandlers[..|w.guard.origHandlers|] == w.guard.origHandlers
    ensures forall s :: s in w.table && s !in w.guard.trapped ==> r.world.table[s] == w.table[s]
    ensures r.raised.None? <==> AllSettable(w.table, w.guard.trapped)
    ensures r.raised.None? ==>
      && |r.world.guard.origHandlers| == |w.guard.origHandlers| + |w.guard.trapped|
      && (forall s :: s in w.guard.trapped ==> s in r.world.table && r.world.table[s] == Interceptor)
      && (forall k :: 0 <= k < |w.guard.trapped| ==>
            r.world.guard.origHandlers[|w.guard.origHandlers| + k] == Displaced(w.table, w.guard.trapped, k))
    ensures r.raised.Some? ==>
      var c := |r.world.guard.origHandlers| - |w.guard.origHandlers|;
      && c < |w.guard.trapped|
      && w.guard.trapped[c] !in w.table
      && AllSettable(w.table, w.guard.trapped[..c])
      && r.raised == Some(Refused(w.guard.trapped[c]))
      && (forall k :: 0 <= k < c ==>
            r.world.guard.origHandlers[|w.guard.origHandlers| + k] == Displaced(w.table, w.guard.trapped, k))
      && forall s :: s in w.table ==>
           r.world.table[s] == (if s in w.guard.trapped[..c] then Interceptor else w.table[s])
  {
    var g := w.guard;
    var ins := Install(w.table, g.trapped);
    assert ins.err.None? ==> g.trapped[..|ins.captured|] == g.trapped;
    SavedAfter(g.origHandlers, w.table, g.trapped);
    var orig := g.origHandlers + ins.captured;
    Outcome(World(ins.table, g.(origHandlers := orig), w.calls), ins.err)
  }

  /** The handlers the entry loop displaced, appended after the ones saved
      before: the old slots keep their values and the new slot `len(prefix)
      + k` holds what the `k`-th swap displaced. */
  lemma SavedAfter(prefix: seq<Handler>, t: Table, sigs: seq<Signal>)
    ensures var orig := prefix + Install(t, sigs).captured;
      && orig[..|prefix|] == prefix
      && forall k :: 0 <= k < |Install(t, sigs).captured| ==>
           orig[|prefix| + k] == Displaced(t, sigs, k)
  {
    var orig := prefix + Install(t, sigs).captured;
    assert orig[..|prefix|] == prefix;
  }

  // ---------------------------------------------------------------------------
  // handler (the interceptor)

  /** `e` is the record of a delivery of `signum` with `frame`: it points at the
      first position of `signum` in `trapped`. */
  predicate Records(trapped: seq<Signal>, e: Event, signum: Signal, frame: Frame)
  {
    && e.frame == frame
    && e.index < |trapped|
    && trapped[e.index] == signum
    && signum !in trapped[..e.index]
  }

  /** The interceptor: logs the delivery as the first position of the signal
      among the trapped ones, together with its frame. No other attribute
      changes, and no original handler runs. */
  function Intercept(g: Guard, signum: Signal, frame: Frame): (r: Result<Guard>)
    ensures r.Ok? <==> signum in g.trapped
    ensures r.Fail? ==> r.error == NotTrapped(signum)
    ensures r.Ok? ==>
      && r.value.trapped == g.trapped
      && r.value.origHandlers == g.origHandlers
      && |r.value.got| == |g.got| + 1
      && r.value.got[..|g.got|] == g.got
      && Records(g.trapped, r.value.got[|g.got|], signum, frame)
  {
    if signum in g.trapped then
      var got := g.got + [Event(IndexOf(g.trapped, signum), frame)];
      assert got[..|g.got|] == g.got;
      Ok(g.(got := got))
    else
      Fail(NotTrapped(signum))
  }

  // ---------------------------------------------------------------------------
  // __exit__, first loop: restoration

  /** The result of the restoration loop: the table, how many iterations
      completed, and the exception that stopped the loop, if any. */
  datatype Restored = Restored(table: Table, done: nat, err: Option<Error>)

  /** The restoration loop: walks the positions of `trapped` in order and
      installs, for the signal at each position, the handler saved at the same
      position. Each signal ends up with the handler saved at its LAST position in
      `trapped`; only the first `len(trapped)` saved handlers are ever read. */
  function Restore(t: Table, sigs: seq<Signal>, hs: seq<Handler>): (r: Restored)
    ensures r.done <= |sigs| && r.done <= |hs|
    ensures r.err.None? <==> r.done == |sigs|
    ensures r.err.None? <==> |hs| >= |sigs| && AllSettable(t, sigs)
    ensures r.err.Some? ==>
      || (r.done == |hs| && r.err == Some(IndexOutOfRange))
      || (r.done < |hs| && sigs[r.done] !in t && r.err == Some(Refused(sigs[r.done])))
    ensures AllSettable(t, sigs[..r.done])
    ensures r.table.Keys == t.Keys
    ensures forall s :: s in t ==>
      r.table[s] == (if s in sigs[..r.done] then hs[LastIndexOf(sigs[..r.done], s)] else t[s])
    decreases |sigs|
  {
    if sigs == [] then Restored(t, 0, None)
    else
      var n := |sigs| - 1;
      assert sigs[..n + 1] == sigs;
      var prev := Restore(t, sigs[..n], hs);
      assert sigs[..n][..prev.done] == sigs[..prev.done];
      if prev.err.Some? then prev
      else if n >= |hs| then Restored(prev.table, n, Some(IndexOutOfRange))
      else
        match SetHandler(prev.table, sigs[n], hs[n])
        case None => Restored(prev.table, n, Some(Refused(sigs[n])))
        case Some(sw) =>
          assert sigs == sigs[..n] + [sigs[n]];
          Restored(sw.table, n + 1, None)
  }

  /** Every trapped signal holds the handler saved at its last position. */
  predicate RestoredAll(trapped: seq<Signal>, orig: seq<Handler>, t: Table)
  {
    && |orig| >= |trapped|
    && forall k :: 0 <= k < |trapped| ==>
         trapped[k] in t && t[trapped[k]] == orig[LastIndexOf(trapped, trapped[k])]
  }

  // ---------------------------------------------------------------------------
  // __exit__, second loop: replay

  /** Replaying `e` calls a Python callable: the saved handler exists and is a
      user handler (it may still raise). */
  predicate Reaches(trapped: seq<Signal>, orig: seq<Handler>, e: Event)
  {
    e.index < |trapped| && e.index < |orig| && orig[e.index].User?
  }

  /** The call replaying `e` makes: the handler saved at the logged position,
      given the signal at that position and the logged frame. */
  function Expected(trapped: seq<Signal>, orig: seq<Handler>, e: Event): Invocation
    requires Reaches(trapped, orig, e)
  {
    Invocation(orig[e.index].id, trapped[e.index], e.frame)
  }

  /** The exception replaying `e` raises, if any. The interceptor is callable,
      but calling it appends to the list being iterated, so the loop would
      never end. */
  function FailureOf(trapped: seq<Signal>, orig: seq<Handler>, e: Event): Option<Error>
  {
    if e.index >= |trapped| || e.index >= |orig| then Some(IndexOutOfRange)
    else
      match orig[e.index]
      case User(id, raises) => if raises then Some(HandlerRaised(id)) else None
      case Interceptor => Some(Diverges)
      case Default => Some(NotCallable(Default))
      case Ignore => Some(NotCallable(Ignore))
  }

  /** The replay of `got` stopped at position `j`: everything before it
      replayed cleanly, the exception is the one `got[j]` raises, and the
      calls are those before `j`, plus `got[j]`'s own when it reached a
      callable. */
  predicate StoppedAt(trapped: seq<Signal>, orig: seq<Handler>, got: seq<Event>,
                      j: nat, calls: seq<Invocation>, err: Option<Error>)
  {
    && j < |got|
    && (forall k :: 0 <= k < j ==> FailureOf(trapped, orig, got[k]).None?)
    && err == FailureOf(trapped, orig, got[j])
    && err.Some?
    && |calls| == j + (if Reaches(trapped, orig, got[j]) then 1 else 0)
  }

  /** The result of the replay loop: the calls made and the exception that
      stopped the loop, if any. */
  datatype Replayed = Replayed(calls: seq<Invocation>, err: Option<Error>)

  /** The replay loop: for each logged delivery, calls the handler saved at
      the logged position with the signal at that position and the logged
      frame. One call per recorded event, in recorded order, with nothing merged or dropped,
      until the first exception, which ends the loop. */
  function Replay(trapped: seq<Signal>, orig: seq<Handler>, got: seq<Event>): (r: Replayed)
    ensures |r.calls| <= |got|
    ensures forall k :: 0 <= k < |r.calls| ==>
      Reaches(trapped, orig, got[k]) && r.calls[k] == Expected(trapped, orig, got[k])
    ensures r.err.None? <==> forall k :: 0 <= k < |got| ==> FailureOf(trapped, orig, got[k]).None?
    ensures r.err.None? ==> |r.calls| == |got|
    ensures r.err.Some? ==> exists j :: StoppedAt(trapped, orig, got, j, r.calls, r.err)
    decreases |got|
  {
    if got == [] then Replayed([], None)
    else
      var n := |got| - 1;
      var prev := Replay(trapped, orig, got[..n]);
      if prev.err.Some? then
        var j :| StoppedAt(trapped, orig, got[..n], j, prev.calls, prev.err);
        assert StoppedAt(trapped, orig, got, j, prev.calls, prev.err);
        prev
      else
        var e := got[n];
        var step := if Reaches(trapped, orig, e) then [Expected(trapped, orig, e)] else [];
        var r := Replayed(prev.calls + step, FailureOf(trapped, orig, e));
        assert r.err.Some? ==> StoppedAt(trapped, orig, got, n, r.calls, r.err);
        r
  }

  /** `__exit__`: restore first, replay only once every trapped signal has its
      saved handler back. Neither bookkeeping list is cleared. */
  function Exit(w: World): (r: Outcome)
    ensures r.world.guard == w.guard
    ensures r.world.table.Keys == w.table.Keys
    ensures forall s :: s in w.table && s !in w.guard.trapped ==> r.world.table[s] == w.table[s]
    ensures |r.world.calls| >= |w.calls| && r.world.calls[..|w.calls|] == w.calls
    ensures RestoreCompletes(w) ==> RestoredAll(w.guard.trapped, w.guard.origHandlers, r.world.table)
    ensures !RestoreCompletes(w) ==> r.world.calls == w.calls && r.raised.Some?
    ensures RestoreCompletes(w) ==>
      var rp := Replay(w.guard.trapped, w.guard.origHandlers, w.guard.got);
      r.world.calls == w.calls + rp.calls && r.raised == rp.err
  {
    var g := w.guard;
    var rs := Restore(w.table, g.trapped, g.origHandlers);
    assert rs.err.None? ==> g.trapped[..rs.done] == g.trapped;
    if rs.err.Some? then
      Outcome(w.(table := rs.table), rs.err)
    else
      var rp := Replay(g.trapped, g.origHandlers, g.got);
      var calls := w.calls + rp.calls;
      assert calls[..|w.calls|] == w.calls;
      Outcome(w.(table := rs.table, calls := calls), rp.err)
  }

  /** The restoration loop of `__exit__` runs to completion on `w`. */
  predicate RestoreCompletes(w: World)
  {
    |w.guard.origHandlers| >= |w.guard.trapped| && AllSettable(w.table, w.guard.trapped)
  }
}

=== FILE: delivery.dfy ===
/** Signal delivery by the OS, modelled as explicit steps between `__enter__`
    and `__exit__`: each step runs whatever handler the table holds for the
    delivered signal. Asynchrony and preemption are not modelled; a delivery
    happens between two steps of the protected code. */
module Delivery {
  import opened SignalTable
  import opened DelayedSignals

  /** One signal arriving with its frame. */
  datatype Delivery = Delivery(signum: Signal, frame: Frame)

  /** `s` is trapped by the guard and its slot holds the interceptor. */
  predicate Intercepted(w: World, s: Signal)
  {
    s in w.guard.trapped && s in w.table && w.table[s] == Interceptor
  }

  /** The OS runs the handler installed for `signum`. When that is the
      interceptor, the guard records one event and no user handler runs; a user
      handler runs at once; SIG_IGN does nothing; SIG_DFL hands over to the OS
      default action. A signal without a slot is never delivered. */
  function Dispatch(w: World, signum: Signal, frame: Frame): (r: Outcome)
    ensures r.world.table == w.table
    ensures r.world.guard.trapped == w.guard.trapped
    ensures r.world.guard.origHandlers == w.guard.origHandlers
    ensures signum in w.table && w.table[signum] == Interceptor ==>
      && r.world.calls == w.calls
      && (r.raised.None? <==> signum in w.guard.trapped)
      && (r.raised.Some? ==> r.raised == Some(NotTrapped(signum)))
      && (r.raised.None? ==>
            && |r.world.guard.got| == |w.guard.got| + 1
            && r.world.guard.got[..|w.guard.got|] == w.guard.got
            && Records(w.guard.trapped, r.world.guard.got[|w.guard.got|], signum, frame))
    ensures signum in w.table && w.table[signum].User? ==>
      && r.world.guard == w.guard
      && r.world.calls == w.calls + [Invocation(w.table[signum].id, signum, frame)]
      && (r.raised.Some? <==> w.table[signum].raises)
    ensures signum !in w.table || w.table[signum] in {Default, Ignore} ==>
      r.world.guard == w.guard && r.world.calls == w.calls
  {
    if signum !in w.table then Outcome(w, None)
    else
      match w.table[signum]
      case Interceptor =>
        (match Intercept(w.guard, signum, frame)
         case Ok(g) => Outcome(w.(guard := g), None)
         case Fail(e) => Outcome(w, Some(e)))
      case User(id, raises) =>
        Outcome(w.(calls := w.calls + [Invocation(id, signum, frame)]),
                if raises then Some(HandlerRaised(id)) else None)
      case Default => Outcome(w, Some(DefaultAction(signum)))
      case Ignore => Outcome(w, None)
  }

  /** Every delivery is of a trapped signal. */
  predicate AllTrapped(trapped: seq<Signal>, ds: seq<Delivery>)
  {
    forall k :: 0 <= k < |ds| ==> ds[k].signum in trapped
  }

  /** The events the interceptor records for `ds`, in delivery order. */
  function Recorded(trapped: seq<Signal>, ds: seq<Delivery>): (es: seq<Event>)
    requires AllTrapped(trapped, ds)
    ensures |es| == |ds|
    ensures forall k :: 0 <= k < |ds| ==> Records(trapped, es[k], ds[k].signum, ds[k].frame)
    decreases |ds|
  {
    if ds == [] then []
    else
      var n := |ds| - 1;
      Recorded(trapped, ds[..n]) + [Event(IndexOf(trapped, ds[n].signum), ds[n].frame)]
  }

  /** The deliveries `ds`, one after another, until one raises. The table and
      `orig_handlers` never change. When every delivery hits the interceptor,
      nothing raises, no user handler runs, and `got` grows by exactly the
      events of `ds`. */
  function RunBody(w: World, ds: seq<Delivery>): (r: Outcome)
    ensures r.world.table == w.table
    ensures r.world.guard.trapped == w.guard.trapped
    ensures r.world.guard.origHandlers == w.guard.origHandlers
    ensures |r.world.calls| >= |w.calls| && r.world.calls[..|w.calls|] == w.calls
    ensures |r.world.guard.got| >= |w.guard.got| && r.world.guard.got[..|w.guard.got|] == w.guard.got
    ensures (forall k :: 0 <= k < |ds| ==> Intercepted(w, ds[k].signum)) ==>
      && r.raised.None?
      && r.world.calls == w.calls
      && AllTrapped(w.guard.trapped, ds)
      && r.world.guard.got == w.guard.got + Recorded(w.guard.trapped, ds)
    decreases |ds|
  {
    if ds == [] then Outcome(w, None)
    else
      var n := |ds| - 1;
      var prev := RunBody(w, ds[..n]);
      if prev.raised.Some? then prev
      else
        var r := Dispatch(prev.world, ds[n].signum, ds[n].frame);
        assert r.world.calls[..|w.calls|] == prev.world.calls[..|prev.world.calls|][..|w.calls|];
        assert r.world.guard.got[..|w.guard.got|] == prev.world.guard.got[..|prev.world.guard.got|][..|w.guard.got|];
        r
  }
}

=== FILE: protected_call.dfy ===
/** The two entry points over the guard: the `with` block and the decorator
    `__call__`, which wraps one call of a function in one `with` block on the
    same guard instance. */
module ProtectedCall {
  import opened SignalTable
  import opened DelayedSignals
  import opened Delivery

  /** `with guard: <code>` where the code sees the deliveries `ds`. A failed
      `__enter__` propagates without running the block or `__exit__`. Otherwise
      `__exit__` runs whatever happened in the block, and an exception it raises
      replaces the block's own.

      Whatever happens, the block changes no signal outside `trapped`, calls
      and log entries are only ever appended, and once entry has succeeded
      every trapped signal ends up with the handler saved at its last position
      in `trapped`. A refused entry raises, and neither runs nor logs a
      handler. */
  function Region(w: World, ds: seq<Delivery>): (r: Outcome)
    ensures r.world.guard.trapped == w.guard.trapped
    ensures r.world.table.Keys == w.table.Keys
    ensures forall s :: s in w.table && s !in w.guard.trapped ==> r.world.table[s] == w.table[s]
    ensures |r.world.calls| >= |w.calls| && r.world.calls[..|w.calls|] == w.calls
    ensures |r.world.guard.got| >= |w.guard.got| && r.world.guard.got[..|w.guard.got|] == w.guard.got
    ensures !AllSettable(w.table, w.guard.trapped) ==>
      && r.raised.Some?
      && r.world.calls == w.calls
      && r.world.guard.got == w.guard.got
    ensures AllSettable(w.table, w.guard.trapped) ==>
      && |r.world.guard.origHandlers| == |w.guard.origHandlers| + |w.guard.trapped|
      && RestoredAll(w.guard.trapped, r.world.guard.origHandlers, r.world.table)
  {
    var entered := Enter(w);
    if entered.raised.Some? then entered
    else
      var inside := RunBody(entered.world, ds);
      var after := Exit(inside.world);
      assert RestoreCompletes(inside.world) by {
        assert inside.world.table.Keys == w.table.Keys;
      }
      assert after.world.calls[..|w.calls|] == inside.world.calls[..|inside.world.calls|][..|w.calls|];
      Outcome(after.world, if after.raised.Some? then after.raised else inside.raised)
  }

  /** What the wrapped function does: the deliveries it sees while it runs, and
      then its own result. */
  datatype Body<V> = Body(deliveries: seq<Delivery>, result: CallResult<V>)

  /** A returned value or a propagated exception. */
  datatype CallResult<V> = Returned(value: V) | Raised(error: Error)

  /** `call_fn`, the wrapper `__call__` returns: the function runs inside one
      complete `with` block on the shared guard. When the block raises
      nothing, the caller gets the function's own result; in any case a value
      is only ever the function's, an exception of the function is never
      swallowed, and a refused entry raises without a handler being called.
      The guard leaves the table as a `with` block does. */
  function Call<V>(w: World, body: Body<V>): (r: (World, CallResult<V>))
    ensures Region(w, body.deliveries).raised.None? ==> r.1 == body.result
    ensures Region(w, body.deliveries).raised.Some? ==> r.1 == Raised(Region(w, body.deliveries).raised.value)
    ensures r.1.Returned? ==> r.1 == body.result
    ensures body.result.Raised? ==> r.1.Raised?
    ensures !AllSettable(w.table, w.guard.trapped) ==> r.1.Raised? && r.0.calls == w.calls
    ensures r.0.guard.trapped == w.guard.trapped
    ensures r.0.table.Keys == w.table.Keys
    ensures forall s :: s in w.table && s !in w.guard.trapped ==> r.0.table[s] == w.table[s]
    ensures AllSettable(w.table, w.guard.trapped) ==>
      RestoredAll(w.guard.trapped, r.0.guard.origHandlers, r.0.table)
  {
    var o := Region(w, body.deliveries);
    (o.world, if o.raised.Some? then Raised(o.raised.value) else body.result)
  }
}

=== FILE: signal_argument.dfy ===
/** What `__init__` does with an argument that is iterable but not a list.
    The constructor keeps the object it is handed; `__enter__` only loops over
    it, but the interceptor calls its `index` method and `__exit__` takes its
    `len` and subscripts it. A set or a generator therefore passes entry and
    fails later, with the interceptor still installed. The guard of the rest
    of the model keeps a copy of the argument as a list, which is what the
    code needs. */
module SignalArgument {
  import opened SignalTable
  import opened DelayedSignals
  import opened Delivery
  import opened ProtectedCall
  import opened CycleLemmas

  /** The `signals` argument. `items` is the order a `for` loop visits. A
      `Listed` argument is a list or tuple. An `Unindexed` one is a set
      (`sized`) or a generator (not `sized`): it has no `index` method and
      cannot be subscripted, and a generator has no length either. */
  datatype Signals =
    | Listed(items: seq<Signal>)
    | Unindexed(items: seq<Signal>, sized: bool)

  /** The guard as the constructor builds it: `trapped` is the argument
      object itself. */
  datatype StoredGuard = StoredGuard(trapped: Signals, origHandlers: seq<Handler>, got: seq<Event>)

  /** The table and guard after a step, and the exception it raised. */
  datatype Stage = Stage(table: Table, guard: StoredGuard, raised: Option<Error>)

  /** The guard viewed as a list-backed guard, for the steps that behave the
      same on both kinds of argument. */
  function AsGuard(g: StoredGuard): Guard
  {
    Guard(g.trapped.items, g.origHandlers, g.got)
  }

  /** `__init__` as written: keeps the argument, whatever its kind. */
  function InitAsWritten(signals: Signals): (g: StoredGuard)
    ensures g.trapped == signals
    ensures |g.origHandlers| == 0 && |g.got| == 0
  {
    StoredGuard(signals, [], [])
  }

  /** `__enter__` as written: only loops over `trapped`, so every kind of
      argument behaves like a list here. */
  function EnterAsWritten(t: Table, g: StoredGuard): (r: Stage)
    ensures r.guard.trapped == g.trapped && r.guard.got == g.got
    ensures r.raised.None? <==> AllSettable(t, g.trapped.items)
    ensures r.raised.None? ==>
      forall s :: s in g.trapped.items ==> s in r.table && r.table[s] == Interceptor
  {
    var o := Enter(World(t, AsGuard(g), []));
    Stage(o.world.table, g.(origHandlers := o.world.guard.origHandlers), o.raised)
  }

  /** The interceptor as written: `trapped.index` is an AttributeError on an
      argument without that method. */
  function HandlerAsWritten(g: StoredGuard, signum: Signal, frame: Frame): (r: Result<StoredGuard>)
    ensures g.trapped.Unindexed? ==> r == Fail(NoIndexMethod)
    ensures g.trapped.Listed? ==> (r.Ok? <==> signum in g.trapped.items)
    ensures r.Ok? ==> r.value.trapped == g.trapped && |r.value.got| == |g.got| + 1
  {
    match g.trapped
    case Unindexed(_, _) => Fail(NoIndexMethod)
    case Listed(_) =>
      match Intercept(AsGuard(g), signum, frame)
      case Ok(h) => Ok(g.(got := h.got))
      case Fail(e) => Fail(e)
  }

  /** `__exit__` as written, without the replayed calls: on an unindexed
      argument, `len` (a generator) or the first subscript (a non-empty set,
      or a non-empty log) raises TypeError before anything is restored. */
  function ExitAsWritten(t: Table, g: StoredGuard): (r: Stage)
    ensures r.guard == g
    ensures g.trapped.Unindexed? && (!g.trapped.sized || g.trapped.items != [] || g.got != []) ==>
      r.table == t && r.raised == Some(NotIndexable)
    ensures g.trapped.Listed? && RestoreCompletes(World(t, AsGuard(g), [])) ==>
      RestoredAll(g.trapped.items, g.origHandlers, r.table)
  {
    match g.trapped
    case Unindexed(items, sized) =>
      if !sized || items != [] || g.got != [] then Stage(t, g, Some(NotIndexable))
      else Stage(t, g, None)
    case Listed(_) =>
      var o := Exit(World(t, AsGuard(g), []));
      Stage(o.world.table, g, o.raised)
  }

  /** The code as written, handed a non-empty set or generator of settable
      signals: entry succeeds and routes every signal to the interceptor, each
      delivery then raises AttributeError inside the protected code, and exit
      raises TypeError before restoring anything, so the signals stay routed
      to the interceptor after the `with` block. */
  lemma UnindexedArgumentStrandsInterceptor(t: Table, xs: seq<Signal>, sized: bool, signum: Signal, frame: Frame)
    requires xs != [] && AllSettable(t, xs)
    ensures var entered := EnterAsWritten(t, InitAsWritten(Unindexed(xs, sized)));
      var exited := ExitAsWritten(entered.table, entered.guard);
      && entered.raised.None?
      && HandlerAsWritten(entered.guard, signum, frame) == Fail(NoIndexMethod)
      && exited.raised == Some(NotIndexable)
      && xs[0] in exited.table
      && exited.table[xs[0]] == Interceptor
  {
    var entered := EnterAsWritten(t, InitAsWritten(Unindexed(xs, sized)));
    assert xs[0] in xs;
  }

  /** A concrete instance: `delayed_signals({2})` around a block, with signal 2
      at SIG_DFL before. After the block signal 2 is still routed to the
      interceptor instead of SIG_DFL. */
  lemma SetOfOneSignalIsNeverRestored()
    ensures var t := map[2 := Default];
      var entered := EnterAsWritten(t, InitAsWritten(Unindexed([2], true)));
      var exited := ExitAsWritten(entered.table, entered.guard);
      && exited.raised == Some(NotIndexable)
      && exited.table[2] == Interceptor
      && exited.table[2] != t[2]
  {
    UnindexedArgumentStrandsInterceptor(map[2 := Default], [2], true, 2, NoFrame);
  }

  /** The constructor the class evidently intends for "an iterable of
      signals": it copies the argument into a list, in loop order. */
  function NewFromIterable(signals: Signals): (g: Guard)
    ensures g.trapped == signals.items
    ensures FirstCycle(g)
  {
    New(signals.items)
  }

  /** With the argument copied, any iterable of distinct settable signals
      behaves like a list: every delivery of one of them is logged, and a
      `with` block leaves the signal table exactly as it was. */
  lemma CopiedArgumentRestoresTable(t: Table, signals: Signals, ds: seq<Delivery>, calls: seq<Invocation>,
                                    signum: Signal, frame: Frame)
    requires NoDuplicates(signals.items) && AllSettable(t, signals.items)
    requires signum in signals.items
    ensures Intercept(NewFromIterable(signals), signum, frame).Ok?
    ensures Region(World(t, NewFromIterable(signals), calls), ds).world.table == t
  {
    FirstCycleRestoresTable(World(t, NewFromIterable(signals), calls), ds);
  }
}

=== FILE: signal_table.dfy ===
/** The process-wide signal disposition table, the handler values it holds, the
    exceptions the guard can raise, and the one primitive the guard uses on the
    table: `signal.signal(signum, handler)`, which installs a handler and returns
    the one it displaced. */
module SignalTable {

  type Signal = int

  /** The execution context the OS hands to a handler, kept opaque. `NoFrame` is
      Python's `None`, the interceptor's default frame. */
  datatype Frame = NoFrame | Frame(id: nat)

  /** A signal disposition. `User` is a Python callable, identified by `id`;
      `raises` says whether calling it raises (as `default_int_handler` raises
      KeyboardInterrupt). `Interceptor` is the guard's own bound method
      `handler`. `Default` and `Ignore` are the sentinels SIG_DFL and SIG_IGN,
      which are not callable. */
  datatype Handler =
    | User(id: nat, raises: bool)
    | Interceptor
    | Default
    | Ignore

  /** The disposition of every signal the OS lets a program set; a signal that
      is not a key is one `signal.signal` refuses. */
  type Table = map<Signal, Handler>

  datatype Option<+T> = None | Some(value: T)

  /** The exceptions that can leave the guard. */
  datatype Error =
    | Refused(signum: Signal)           // signal.signal rejected the signal number
    | IndexOutOfRange                   // IndexError on orig_handlers[i] or trapped[i]
    | NotCallable(handler: Handler)     // TypeError: calling SIG_DFL or SIG_IGN
    | HandlerRaised(id: nat)            // a user handler raised
    | NotTrapped(signum: Signal)        // ValueError from trapped.index(signum)
    | Diverges                          // replay reached the interceptor and never ends
    | DefaultAction(signum: Signal)     // the OS default action took over
    | BodyRaised(code: nat)             // the protected code raised on its own
    | NoIndexMethod                     // AttributeError: `trapped` has no `index`
    | NotIndexable                      // TypeError: `len` or `[]` on `trapped`

  datatype Result<+T> = Ok(value: T) | Fail(error: Error)

  /** What a successful `signal.signal` leaves behind: the new table and the
      handler it displaced. */
  datatype Swap = Swap(table: Table, previous: Handler)

  /** `signal.signal(sig, h)`: `None` when the OS refuses the signal. */
  function SetHandler(t: Table, sig: Signal, h: Handler): Option<Swap>
  {
    if sig in t then Some(Swap(t[sig := h], t[sig])) else None
  }

  /** Every signal of `sigs` has a slot `signal.signal` accepts. */
  predicate AllSettable(t: Table, sigs: seq<Signal>)
  {
    forall k :: 0 <= k < |sigs| ==> sigs[k] in t
  }

  /** No signal occurs twice in `sigs`. */
  predicate NoDuplicates(sigs: seq<Signal>)
  {
    forall i, j :: 0 <= i < j < |sigs| ==> sigs[i] != sigs[j]
  }
}
